=== FILE: README.md ===
# Secret retrieval lifecycle — a Dafny model

This project models the backend of a password-protected secret sharing
service. A user stores text encrypted under a password. Anyone with the
secret's id and the password can retrieve it, subject to an optional
retrieval budget (`maxRetrievals`, null meaning unlimited) and an optional
expiry date.

The model covers:

- **The record** (`SecretEntity`): the `Secret` row with its ciphertext and
  embedded encryption parameters. It has an optional owned `SecretFile`, a
  nullable `expirationDate`, a nullable `maxRetrievals`, a `retrievalCount`
  that defaults to 0, and an optional `createdBy`.
- **The retrieval lifecycle** (`Secrets`):
  - `processSecrets` validates its inputs and looks the secret up.
  - It then does retrieval accounting and saves the result before decrypting. An exhausted budget deletes the record and fails Forbidden. Otherwise one unit of budget is spent and the counter goes up.
  - It decrypts, then applies a lazy expiry check that deletes an expired record and fails NotFound. Last, it builds the response.
  - The same module has the two creation-time validators, `validateMaxRetrievals` and `handleLifetime`.
  - `Retrieve` states one whole retrieval as a transition of the store. The class `SecretsService` keeps the table in a `map` field and runs the same steps as methods. `ProcessSecrets` is proved to agree with `Retrieve`.
- **The HTTP boundary** (`SecretsController`): each route's guards and how its catch block translates errors. The service calls behind the routes are function-valued parameters.
- **Access notification** (`AccessController`): choosing the client address, removing the first occurrence of the IPv4-mapped prefix `::ffff:` (section 2.5.5.2 of RFC 4291), the `Unknown` defaults, and the rule that the creator is e-mailed only when one is recorded.
- **Lifecycle properties** (`LifecycleProperties`): lemmas over several successive retrievals, from creation through to deletion, and over what the routes make of each outcome.

The cipher is an oracle. `Decryptor` takes the ciphertext, the password and
the stored IV, salt and tag, and either yields the plaintext or `None` where
the real cipher throws. Time is a `Timestamp` parameter `now`, in
milliseconds. A lifetime is a whole number of days of 86 400 000 ms each.

The model keeps these behaviours of the code, which a reader might not expect:

- Accounting is saved before decryption (`backend/src/secrets/secrets.service.ts:30-32`). So a wrong password spends a retrieval and increments `retrievalCount`. `LifecycleProperties.WrongPasswordsExhaustBudget` shows that `n` wrong attempts lock out the right password.
- A retrieval that spends the last unit leaves the record stored with `maxRetrievals = 0`. The *next* attempt deletes it and fails Forbidden (`LifecycleProperties.ExactlyNRetrievals`).
- Expiry is checked only after accounting and a successful decryption. An expired secret with a wrong password therefore still answers "Invalid password provided", spends a retrieval and stays stored.
- For a body whose `maxRetrievals` arrives as the declared number (a JSON body), the create route's guard lets `0` through, because a numeric 0 is falsy (`LifecycleProperties.ControllerGuardWeakerThanServiceCheck`). A multipart body delivers the text `"0"`, which is truthy, so that 0 is refused by the guard.

## Model

| member | source | states |
|---|---|---|
| `SecretEntity.NewSecret` | backend/src/secrets/secret.entity.ts:11-34 | a new row keeps the generated id and the given fields, and its retrievalCount starts at 0 (the column default) |
| `Secrets.ValidateInputs` | backend/src/secrets/secrets.service.ts:47-51 | passes exactly when both id and password are non-empty; otherwise BadRequest "ID and password are required" |
| `Secrets.Lookup` | backend/src/secrets/secrets.service.ts:56-62 | succeeds exactly when the id is stored, with that record; otherwise NotFound "Secret not found" |
| `Secrets.Exhausted` | backend/src/secrets/secrets.service.ts:69-70 | a null budget is never exhausted, a budget of 0 is, and a positive budget is not |
| `Secrets.IsExpired` | backend/src/secrets/secrets.service.ts:116 | a null expiry never expires; an expiry equal to or after now has not expired; an expiry strictly before now has |
| `Secrets.FormatSecretResponse` | backend/src/secrets/secrets.service.ts:126-134 | the reply carries the decrypted content with the record's own id, expiry, budget and retrieval count |
| `Secrets.Account` | backend/src/secrets/secrets.service.ts:68-82 | fails Forbidden exactly when a budget is set and is ≤ 0; otherwise the count goes up by 1, a set budget goes down by exactly 1 and stays ≥ 0, a null budget stays null, and no other field (the id included) changes |
| `Secrets.DecryptSecret` | backend/src/secrets/secrets.service.ts:98-110 | succeeds exactly when the oracle yields a plaintext for the stored ciphertext, IV, salt and tag, and returns it; any cipher failure becomes BadRequest "Invalid password provided" |
| `Secrets.ValidateMaxRetrievals` | backend/src/secrets/secrets.service.ts:87-93 | accepts exactly undefined and positive values; rejects ≤ 0 and null with BadRequest "Invalid maxRetrievals value: <value>. It must be a positive number.", where <value> is the argument as a template literal renders it (for magnitudes up to 2^53) |
| `Secrets.HandleLifetime` | backend/src/secrets/secrets.service.ts:139-149 | undefined or null gives no expiry; ≤ 0 fails BadRequest; otherwise the expiry is now + lifetime days, which is strictly later than now |
| `Secrets.Retrieve` | backend/src/secrets/secrets.service.ts:25-42 | a retrieval never adds a record or touches another one. Bad input fails BadRequest and an unknown id fails NotFound, both with the store unchanged. An exhausted budget deletes the record and fails Forbidden. A wrong password fails BadRequest with the spent counters saved. Expired after a good decryption deletes the record and fails NotFound. Success happens exactly when every step passes and returns the plaintext with the saved counters; the record is kept |
| `Secrets.SecretsService.Save` | backend/src/secrets/secrets.service.ts:81 | the table afterwards is the old table with the record stored under its own id |
| `Secrets.SecretsService.Remove` | backend/src/secrets/secrets.service.ts:71 | the table afterwards is the old table without the record's id |
| `Secrets.SecretsService.FindSecretById` | backend/src/secrets/secrets.service.ts:56-62 | succeeds exactly when the id is in the table, returning the stored record (whose id is the one asked for); otherwise NotFound, with the table untouched |
| `Secrets.SecretsService.ValidateAndHandleRetrieval` | backend/src/secrets/secrets.service.ts:68-82 | returns what `Account` gives; on Forbidden the record is removed from the table, otherwise the updated record is saved over it |
| `Secrets.SecretsService.HandleExpiration` | backend/src/secrets/secrets.service.ts:115-121 | reports expired exactly when an expiry is set and strictly before now (an expiry equal to now is not expired), and only then removes the record |
| `Secrets.SecretsService.ProcessSecrets` | backend/src/secrets/secrets.service.ts:25-42 | the reply and the table it leaves are exactly the transition `Retrieve` gives from the old table, and the table stays keyed by record id |
| `SecretsController.MaxRetrievalsRejected` | backend/src/secrets/secrets.controller.ts:46 | for the declared numeric field, the guard refuses exactly the negative numbers: undefined, null and 0 pass it |
| `SecretsController.TranslateError` | backend/src/secrets/secrets.controller.ts:102-108 | NotFound is kept with its message; every other error becomes BadRequest with the route's prefix before its message |
| `SecretsController.CreateSecret` | backend/src/secrets/secrets.controller.ts:27-72 | missing or empty content or password fails BadRequest. A truthy maxRetrievals ≤ 0 fails BadRequest, while 0 passes. Any service error becomes BadRequest with the creation prefix. Success returns the service's new id with status 200 |
| `SecretsController.GetSecret` | backend/src/secrets/secrets.controller.ts:77-110 | a missing password fails BadRequest without the service's answer mattering. Otherwise the route succeeds exactly when `retrieveSecret(id, password, false)` does and returns its content and file. Failures are translated, so only NotFound or BadRequest reach the client |
| `SecretsController.DownloadFile` | backend/src/secrets/secrets.controller.ts:115-152 | a missing password fails BadRequest. The route succeeds exactly when `retrieveSecret(id, password, true)` succeeds with a file, and it returns that file's name and data. A secret without a file fails NotFound "Aucun fichier associé à ce secret". Other failures are translated |
| `SecretsController.GetSecretCount` | backend/src/secrets/secrets.controller.ts:157-168 | the service's count comes back with status 200; any error becomes BadRequest with the count prefix |
| `SecretsController.UserSecretsQueryOf` | backend/src/secrets/secrets.controller.ts:174-180 | absent page, limit, sortBy and order default to 1, 10, "createdAt" and ASC; given ones are kept |
| `SecretsController.GetUserSecrets` | backend/src/secrets/secrets.controller.ts:173-202 | a missing or empty email fails BadRequest "L'email est requis". Otherwise the defaulted query is forwarded and its page returned, and any error becomes BadRequest with the listing prefix |
| `SecretsController.DeleteSecret` | backend/src/secrets/secrets.controller.ts:207-227 | a missing password fails BadRequest. Otherwise the route succeeds exactly when the service's delete does. NotFound is kept and everything else becomes BadRequest |
| `AccessController.IndexOf` | backend/src/access/access.controller.ts:34 | finds the first index at which the pattern occurs, with no occurrence before it, or reports that it occurs nowhere |
| `AccessController.RemoveFirst` | backend/src/access/access.controller.ts:34 | without an occurrence the text is unchanged; otherwise exactly the first occurrence is cut out |
| `AccessController.RawIp` | backend/src/access/access.controller.ts:30-33 | the first truthy of the x-forwarded-for header, the socket address and "127.0.0.1", so never empty |
| `AccessController.CleanIp` | backend/src/access/access.controller.ts:34 | an address without `::ffff:` is unchanged; otherwise exactly its first occurrence, wherever it stands, is cut out, making the address 7 characters shorter |
| `AccessController.GeoOrDefault` | backend/src/access/access.controller.ts:37-40 | the lookup's answer, or city and country "Unknown" when it yields null |
| `AccessController.UserAgentOrDefault` | backend/src/access/access.controller.ts:42 | the user-agent header when truthy, otherwise "Unknown" |
| `AccessController.NotificationFor` | backend/src/access/access.controller.ts:50-61 | an e-mail is produced exactly when createdBy is truthy, addressed to it and carrying the address, user agent and location |
| `AccessController.NotifyAccess` | backend/src/access/access.controller.ts:23-69 | fails NotFound exactly when the id is unknown. Otherwise it answers "Notification sent" with the cleaned address, the defaulted location and the user agent, and e-mails the creator the same facts exactly when one is recorded |
| `AccessController.MappedAddressCleaned` | backend/src/access/access.controller.ts:34 | `::ffff:` followed by any text cleans to that text |
| `AccessController.OnlyFirstPrefixRemoved` | backend/src/access/access.controller.ts:34 | a doubled prefix loses only its first copy |
| `AccessController.UnmappedAddressUnchanged` | backend/src/access/access.controller.ts:34 | an address that does not contain `::ffff:` is returned unchanged |
| `LifecycleProperties.BudgetCountdown` | backend/src/secrets/secrets.service.ts:68-82 | after attempts at k instants within the budget, with either a wrong password or a secret unexpired at every one of those instants, the record is still stored. Its budget is down by k (when set) and its count up by k, and every other record is unchanged |
| `LifecycleProperties.ExactlyNRetrievals` | backend/src/secrets/secrets.service.ts:25-42 | with a budget of n and the right password, retrievals at n instants, none past the expiry, all succeed. After the n-th the record is stored with budget 0. The (n+1)-th, at any instant, fails Forbidden and deletes it |
| `LifecycleProperties.UnlimitedNeverExhausted` | backend/src/secrets/secrets.service.ts:69-80 | a null budget is never refused: an attempt at an instant before expiry fails only for a wrong password; every attempt counts and the budget stays null |
| `LifecycleProperties.WrongPasswordsExhaustBudget` | backend/src/secrets/secrets.service.ts:30-32 | each of n wrong-password attempts, at any instants, fails "Invalid password provided" yet spends a retrieval. A following attempt with the right password fails Forbidden and deletes the secret |
| `LifecycleProperties.CreatedSecretServesItsBudget` | backend/src/secrets/secrets.service.ts:139-149 | a secret created with a validated budget n and a lifetime-derived expiry serves n retrievals made at any n instants, each from its creation up to its expiry, and the next attempt, at any instant, is Forbidden |
| `LifecycleProperties.ControllerGuardWeakerThanServiceCheck` | backend/src/secrets/secrets.controller.ts:46-50 | whatever the create route's guard refuses, the service's check refuses too; the check alone refuses exactly 0 and null |
| `LifecycleProperties.RetrievalStatusAtTheRoute` | backend/src/secrets/secrets.controller.ts:102-108 | through the content route, unknown and expired secrets arrive as NotFound, an exhausted budget and a wrong password as BadRequest with the route's prefix, and a success carries the plaintext |

## Left out

- The cipher (`backend/src/secrets/encryption.service.ts`: PBKDF2-HMAC-SHA256 key derivation and AES-256-GCM with hex encoding) is not modelled. Decryption is an oracle parameter, and the encrypt/decrypt round trip and the freshness of salt and IV are not stated.
- The clock and calendar are not modelled. `new Date()` becomes the parameter `now`, and `setDate` becomes a fixed day length, with no time zones or daylight saving. Numbers are whole, so fractional values and NaN are not modelled.
- Persistence is not modelled. TypeORM's `findOneBy`, `save` and `remove` become operations on an in-memory map, with no transactions or locking, so concurrent retrievals are not modelled.
- In-place mutation is not modelled. The service changes the loaded entity object in place. The model passes the updated record value on to decryption, expiry and the response, so object aliasing is not captured.
- The service reads `secret.iv`, `secret.salt` and `secret.authTag`, which the entity does not declare. The model reads them from the embedded `encryptionDetails`. As written, those reads are undefined, the key derivation throws, and every retrieval that passes accounting fails "Invalid password provided" after spending a unit; the model describes the retrieval the code evidently intends.
- `createdBy` is read by the access route but not declared on the entity. The model gives the record an optional `createdBy` field. As written, the loaded record never carries it, so no access e-mail is ever sent.
- The access route calls the service's private `findSecretById`. The model uses the public `Lookup` for it. The route's own null check (access.controller.ts:25-27) cannot be reached, because the lookup already throws the same NotFound.
- `backend/src/access/access.service.ts` (an HTTP geo-IP lookup and SMTP e-mail) is not modelled. The lookup is a function parameter, and the e-mail is the notification value the route would send. Errors while sending it, and the `console.log` output, are not modelled.
- Create-route body fields are modelled as the declared numbers. A multipart body delivers text: `"0"` is truthy and `"0" <= 0` holds, so the guard refuses a multipart 0 too. Non-numeric text is not modelled.
- Lookup, NotifyAccess: ids are taken as well-formed UUIDs. For an id that is not one, the database query itself fails, so the code answers with that error (a 500) and not NotFound "Secret not found".
- HandleLifetime: assumes the expiry stays within JavaScript's date range (±8.64e15 ms, about 10^8 days from 1970). A larger lifetime makes `setDate` yield an Invalid Date, which never compares as expired; the model instead gives an expiry strictly after now.
- The x-forwarded-for header is taken as the text its `toString()` gives. A comma-separated proxy list is not split, as in the code.
- ValidateMaxRetrievals: numbers are taken as exact integers, and the message prints their exact decimal digits. A JavaScript number beyond 2^53 in magnitude prints differently: `-(2**60)` prints as "-1152921504606847000", and from 10^21 on the exponent form is used, so -10^21 prints as "-1e+21". The create route's guard refuses negative numbers before the service sees them, so the route never shows such a message.
- Account, Retrieve: `maxRetrievals` and `retrievalCount` are taken as unbounded integers. The code stores them in 32-bit integer columns, so the save after accounting fails with a database error once `retrievalCount` would pass 2147483647, and the retrieval then fails with that error.
- GetUserSecrets, UserSecretsQueryOf: query parameters are modelled as the declared numbers and the two sort orders. Without a validation pipe they arrive as text: an empty `?page=` is `""`, not undefined, so it is forwarded rather than defaulted, and `order` may be any text.
- The model stands `processSecrets` in for the service's `retrieveSecret`, which is not part of this model, and so ignores `isDownload`: in the model a download-only fetch spends budget like any other. Whether the real `retrieveSecret` exempts it is not known.
- The service methods `createSecret`, `retrieveSecret`, `getSecretCount`, `getUserSecrets` and `deleteSecret` are not part of this model. The routes take them as function parameters. `LifecycleProperties.RetrieveSecretOver` takes `processSecrets` as the retrieval and returns no attachment.
- The download route's `res.setHeader`/`res.send` and the base64 decoding of the file data are I/O and are not modelled. `Download` carries the file name and the data text.
- The front end, module wiring and configuration, and the earlier `secret-manager-backend` iteration are not part of this model.

=== FILE: access_controller.dfy ===
/** The access-notification route: it checks that the secret exists, works
    out and cleans the client's address, fills in defaults for the geographic
    information and the user agent, and decides whether the creator is e-mailed.
    The geographic lookup is a function parameter; sending the e-mail is
    represented by the notification the route would send. */
module AccessController {
  import opened Common
  import opened SecretEntity
  import opened Secrets

  /** The IPv4-mapped IPv6 prefix (section 2.5.5.2 of RFC 4291), as text. */
  const MappedPrefix := "::ffff:"
  const Loopback := "127.0.0.1"
  const Unknown := "Unknown"
  const NotificationSent := "Notification sent"

  /** The parts of the incoming request the route reads. The forwarded-for
      header is given as the text its `toString()` yields. */
  datatype AccessRequest = AccessRequest(
    forwardedFor: Option<string>,
    remoteAddress: Option<string>,
    userAgent: Option<string>)

  datatype GeoInfo = GeoInfo(city: string, country: string)

  /** The geographic lookup; `None` when it yields null. */
  type GeoLookup = string -> Option<GeoInfo>

  datatype EmailNotification = EmailNotification(
    email: string,
    clientIp: string,
    userAgent: string,
    geoInfo: GeoInfo)

  datatype AccessResponse = AccessResponse(message: string, ip: string, geoInfo: GeoInfo, userAgent: string)

  /** The route's reply and the e-mail it sends, if any. */
  datatype AccessOutcome = AccessOutcome(response: AccessResponse, notification: Option<EmailNotification>)

  /** `pat` occurs in `s` starting at index `i`. */
  predicate OccursAt(s: string, pat: string, i: nat)
  {
    i + |pat| <= |s| && s[i..i + |pat|] == pat
  }

  /** Dropping the first character shifts every occurrence one place to the left. */
  lemma ShiftOccurs(s: string, pat: string, j: nat)
    requires |s| >= 1
    ensures OccursAt(s, pat, j + 1) <==> OccursAt(s[1..], pat, j)
  {
    if j + 1 + |pat| <= |s| {
      assert s[1..][j..j + |pat|] == s[j + 1..j + 1 + |pat|];
    }
  }

  /** The first index at which `pat` occurs in `s`, as `String.prototype.indexOf` finds it. */
  function IndexOf(s: string, pat: string): (r: Option<nat>)
    ensures r.Some? ==> OccursAt(s, pat, r.value)
    ensures r.Some? ==> forall j: nat :: j < r.value ==> !OccursAt(s, pat, j)
    ensures r.None? ==> forall j: nat :: !OccursAt(s, pat, j)
    decreases |s|
  {
    if |s| < |pat| then None
    else if s[..|pat|] == pat then Some(0)
    else
      assert !OccursAt(s, pat, 0) by { assert s[0..|pat|] == s[..|pat|]; }
      assert forall j: nat :: 1 <= j ==> (OccursAt(s, pat, j) <==> OccursAt(s[1..], pat, j - 1)) by {
        forall j: nat | 1 <= j ensures OccursAt(s, pat, j) <==> OccursAt(s[1..], pat, j - 1) {
          ShiftOccurs(s, pat, j - 1);
        }
      }
      match IndexOf(s[1..], pat)
      case None => None
      case Some(i) => Some(i + 1)
  }

  /** `s.replace(pat, '')` with a string pattern: the first occurrence only is removed. */
  function RemoveFirst(s: string, pat: string): (r: string)
    ensures IndexOf(s, pat).None? ==> r == s
    ensures IndexOf(s, pat).Some? ==>
      var i := IndexOf(s, pat).value;
      |r| == |s| - |pat| && r == s[..i] + s[i + |pat|..]
  {
    match IndexOf(s, pat)
    case None => s
    case Some(i) => s[..i] + s[i + |pat|..]
  }

  /** The first truthy of the forwarded-for header, the socket's address and the loopback address. */
  function RawIp(req: AccessRequest): (r: string)
    ensures Truthy(req.forwardedFor) ==> r == req.forwardedFor.value
    ensures !Truthy(req.forwardedFor) && Truthy(req.remoteAddress) ==> r == req.remoteAddress.value
    ensures !Truthy(req.forwardedFor) && !Truthy(req.remoteAddress) ==> r == Loopback
    ensures r != ""
  {
    if Truthy(req.forwardedFor) then req.forwardedFor.value
    else if Truthy(req.remoteAddress) then req.remoteAddress.value
    else Loopback
  }

  /** The address with its first `::ffff:` removed, wherever it occurs. */
  function CleanIp(raw: string): (ip: string)
    ensures IndexOf(raw, MappedPrefix).None? ==> ip == raw
    ensures IndexOf(raw, MappedPrefix).Some? ==>
      var i := IndexOf(raw, MappedPrefix).value;
      |ip| == |raw| - |MappedPrefix| && ip == raw[..i] + raw[i + |MappedPrefix|..]
  {
    RemoveFirst(raw, MappedPrefix)
  }

  function GeoOrDefault(found: Option<GeoInfo>): (g: GeoInfo)
    ensures found.Some? ==> g == found.value
    ensures found.None? ==> g == GeoInfo(Unknown, Unknown)
  {
    match found
    case Some(info) => info
    case None => GeoInfo(Unknown, Unknown)
  }

  function UserAgentOrDefault(header: Option<string>): (ua: string)
    ensures Truthy(header) ==> ua == header.value
    ensures !Truthy(header) ==> ua == Unknown
    ensures ua != ""
  {
    if Truthy(header) then header.value else Unknown
  }

  /** The e-mail the route sends: only when the secret records a creator. */
  function NotificationFor(secret: Secret, ip: string, userAgent: string, geo: GeoInfo)
    : (n: Option<EmailNotification>)
    ensures n.Some? <==> Truthy(secret.createdBy)
    ensures n.Some? ==> n.value == EmailNotification(secret.createdBy.value, ip, userAgent, geo)
  {
    if Truthy(secret.createdBy) then Some(EmailNotification(secret.createdBy.value, ip, userAgent, geo))
    else None
  }

  function NotifyAccess(id: string, store: Store, req: AccessRequest, getGeoInfo: GeoLookup)
    : (r: Result<AccessOutcome, HttpError>)
    // an unknown secret fails before any address or geographic work
    ensures r.Failure? <==> id !in store
    ensures r.Failure? ==> r.error == NotFound(SecretNotFound)
    // the reply echoes the cleaned address, the (defaulted) location and user agent
    ensures r.Success? ==>
      var ip := CleanIp(RawIp(req));
      r.value.response == AccessResponse(NotificationSent, ip, GeoOrDefault(getGeoInfo(ip)),
                                         UserAgentOrDefault(req.userAgent))
    // the creator is e-mailed the same facts, and only when a creator is recorded
    ensures r.Success? ==>
      && (r.value.notification.Some? <==> Truthy(store[id].createdBy))
      && (r.value.notification.Some? ==>
            r.value.notification.value == EmailNotification(store[id].createdBy.value, r.value.response.ip,
                                                             r.value.response.userAgent, r.value.response.geoInfo))
  {
    match Lookup(store, id)
    case Failure(e) => Failure(e)
    case Success(secret) =>
      var clientIp := CleanIp(RawIp(req));
      var geoInfo := GeoOrDefault(getGeoInfo(clientIp));
      var userAgent := UserAgentOrDefault(req.userAgent);
      Success(AccessOutcome(AccessResponse(NotificationSent, clientIp, geoInfo, userAgent),
                            NotificationFor(secret, clientIp, userAgent, geoInfo)))
  }

  /** An IPv4-mapped address loses its prefix, leaving the dotted IPv4 text. */
  lemma MappedAddressCleaned(v4: string)
    ensures CleanIp(MappedPrefix + v4) == v4
  {
    var s := MappedPrefix + v4;
    assert s[..|MappedPrefix|] == MappedPrefix;
    assert IndexOf(s, MappedPrefix) == Some(0);
  }

  /** Only the first occurrence goes: a doubled prefix leaves one behind. */
  lemma OnlyFirstPrefixRemoved(rest: string)
    ensures CleanIp(MappedPrefix + MappedPrefix + rest) == MappedPrefix + rest
  {
    MappedAddressCleaned(MappedPrefix + rest);
    assert MappedPrefix + MappedPrefix + rest == MappedPrefix + (MappedPrefix + rest);
  }

  /** An address that does not contain the prefix is returned unchanged. */
  lemma UnmappedAddressUnchanged(raw: string)
    requires forall j: nat :: !OccursAt(raw, MappedPrefix, j)
    ensures CleanIp(raw) == raw
  {
  }
}

=== FILE: common.dfy ===
/** Values shared by the service, the controllers and the record model:
    failure-compatible wrappers, the HTTP exceptions the NestJS layer raises,
    and the JavaScript notions of "absent" and "truthy" the guards rely on. */
module Common {

  datatype Option<+T> = None | Some(value: T)

  datatype Result<+T, +E> = Success(value: T) | Failure(error: E)

  datatype Outcome<+E> = Pass | Fail(error: E)

  /** The exceptions thrown by the backend; each carries its message. */
  datatype HttpError =
    | BadRequest(message: string)
    | NotFound(message: string)
    | Forbidden(message: string)

  /** A numeric argument as JavaScript may deliver it: `undefined`, `null` or a number.
      Numbers are whole (fractions and NaN are not modelled). */
  datatype OptionalNumber = Undefined | Null | Number(n: int)

  /** Truthiness of an optional string: `undefined`, `null` and `''` are falsy. */
  predicate Truthy(s: Option<string>)
  {
    s.Some? && s.value != ""
  }

  /** Truthiness of an optional number: `undefined`, `null` and `0` are falsy. */
  predicate TruthyNumber(m: OptionalNumber)
  {
    m.Number? && m.n != 0
  }

  function DigitChar(d: nat): char
    requires d < 10
  {
    "0123456789"[d]
  }

  /** Decimal digits of a natural number, most significant first. */
  function Digits(n: nat): string
    decreases n
  {
    if n < 10 then [DigitChar(n)] else Digits(n / 10) + [DigitChar(n % 10)]
  }

  /** How a template literal renders a whole number (`${n}`), for |n| up to 2^53;
      beyond that a JavaScript number prints rounded digits or an exponent. */
  function NumberText(n: int): string
  {
    if n < 0 then "-" + Digits(-n) else Digits(n)
  }

  /** How a template literal renders an optional number. */
  function OptionalNumberText(m: OptionalNumber): string
  {
    match m
    case Undefined => "undefined"
    case Null => "null"
    case Number(n) => NumberText(n)
  }
}

=== FILE: lifecycle_properties.dfy ===
/** Properties of a secret over several retrievals, from its creation to its
    deletion, and of what the HTTP routes make of the service's answers. */
module LifecycleProperties {
  import opened Common
  import opened SecretEntity
  import opened Secrets
  import opened SecretsController

  /** The store after `k` successive retrievals of `id` with `password`, the
      i-th of them at instant `nows[i]`. */
  function AfterAttempts(store: Store, id: string, password: string, nows: seq<Timestamp>,
                         decrypt: Decryptor, k: nat): Store
    requires k <= |nows|
    decreases k
  {
    if k == 0 then store
    else Retrieve(AfterAttempts(store, id, password, nows, decrypt, k - 1), id, password, nows[k - 1], decrypt).store
  }

  /** The record `s` once `k` retrievals have passed its budget check. */
  function Spent(s: Secret, k: nat): Secret
  {
    s.(maxRetrievals := if s.maxRetrievals.Some? then Some(s.maxRetrievals.value - k) else None,
       retrievalCount := s.retrievalCount + k)
  }

  /** `s` has not expired at any of the instants `nows`. */
  predicate LiveThroughout(s: Secret, nows: seq<Timestamp>)
  {
    forall i :: 0 <= i < |nows| ==> !IsExpired(s, nows[i])
  }

  /** Each retrieval that passes the budget check spends one unit of a set
      budget and counts once, whether or not the password is right; no other
      record is touched. The only way the record could leave the store within
      the budget is expiry after a successful decryption, which is excluded. */
  lemma {:induction false} BudgetCountdown(store: Store, id: string, password: string, nows: seq<Timestamp>,
                                           decrypt: Decryptor, k: nat)
    requires id != "" && password != "" && id in store && k <= |nows|
    requires store[id].maxRetrievals.Some? ==> k <= store[id].maxRetrievals.value
    requires Plaintext(store[id], password, decrypt).Some? ==> LiveThroughout(store[id], nows)
    ensures var after := AfterAttempts(store, id, password, nows, decrypt, k);
      && id in after
      && after[id] == Spent(store[id], k)
      && after - {id} == store - {id}
  {
    if k > 0 {
      BudgetCountdown(store, id, password, nows, decrypt, k - 1);
      var before := AfterAttempts(store, id, password, nows, decrypt, k - 1);
      assert before[id] == Spent(store[id], k - 1);
      assert Plaintext(before[id], password, decrypt) == Plaintext(store[id], password, decrypt);
      assert !Exhausted(before[id]);
      assert Account(before[id]).value == Spent(store[id], k);
    }
  }

  /** With a budget of `n`, retrievals with the right password at `n`
      instants before expiry all succeed. The record is still stored, with a
      budget of 0, after the last of them; the next attempt, at any instant,
      deletes it and fails Forbidden. */
  lemma {:induction false} ExactlyNRetrievals(store: Store, id: string, password: string,
                                              nows: seq<Timestamp>, next: Timestamp,
                                              decrypt: Decryptor)
    requires id != "" && password != "" && id in store
    requires store[id].maxRetrievals == Some(|nows|)
    requires Plaintext(store[id], password, decrypt).Some? && LiveThroughout(store[id], nows)
    ensures forall k :: 0 <= k < |nows| ==>
      Retrieve(AfterAttempts(store, id, password, nows, decrypt, k), id, password, nows[k], decrypt)
        .result.Success?
    ensures var last := AfterAttempts(store, id, password, nows, decrypt, |nows|);
      && id in last
      && last[id].maxRetrievals == Some(0)
      && last[id].retrievalCount == store[id].retrievalCount + |nows|
    ensures Retrieve(AfterAttempts(store, id, password, nows, decrypt, |nows|), id, password, next, decrypt)
            == RetrievalOutcome(Failure(Forbidden(RetrievalsExhausted)), store - {id})
  {
    forall k | 0 <= k < |nows|
      ensures Retrieve(AfterAttempts(store, id, password, nows, decrypt, k), id, password, nows[k], decrypt)
                .result.Success?
    {
      BudgetCountdown(store, id, password, nows, decrypt, k);
      var before := AfterAttempts(store, id, password, nows, decrypt, k);
      assert Plaintext(before[id], password, decrypt) == Plaintext(store[id], password, decrypt);
      assert !IsExpired(before[id], nows[k]);
    }
    BudgetCountdown(store, id, password, nows, decrypt, |nows|);
    var last := AfterAttempts(store, id, password, nows, decrypt, |nows|);
    assert Exhausted(last[id]);
    assert last - {id} == store - {id};
  }

  /** A secret without a limit passes the budget check on every attempt made
      before it expires: such an attempt fails only for a wrong password. */
  lemma {:induction false} UnlimitedNeverExhausted(store: Store, id: string, password: string,
                                                   nows: seq<Timestamp>, decrypt: Decryptor)
    requires id != "" && password != "" && id in store
    requires store[id].maxRetrievals.None?
    requires Plaintext(store[id], password, decrypt).Some? ==> LiveThroughout(store[id], nows)
    ensures forall k :: 0 <= k < |nows| ==>
      var o := Retrieve(AfterAttempts(store, id, password, nows, decrypt, k), id, password, nows[k], decrypt);
      o.result.Failure? ==> o.result.error == BadRequest(InvalidPassword)
    ensures var after := AfterAttempts(store, id, password, nows, decrypt, |nows|);
      id in after && after[id].maxRetrievals.None? && after[id].retrievalCount == store[id].retrievalCount + |nows|
  {
    forall k | 0 <= k < |nows|
      ensures var o := Retrieve(AfterAttempts(store, id, password, nows, decrypt, k), id, password, nows[k], decrypt);
        o.result.Failure? ==> o.result.error == BadRequest(InvalidPassword)
    {
      BudgetCountdown(store, id, password, nows, decrypt, k);
      var before := AfterAttempts(store, id, password, nows, decrypt, k);
      assert Plaintext(before[id], password, decrypt) == Plaintext(store[id], password, decrypt);
    }
    BudgetCountdown(store, id, password, nows, decrypt, |nows|);
  }

  /** Accounting is saved before decryption, so wrong passwords spend the
      budget: after `n` failed attempts, at any instants, on a secret allowing
      `n` retrievals, even the right password is refused and the secret is deleted. */
  lemma {:induction false} WrongPasswordsExhaustBudget(store: Store, id: string, wrong: string, right: string,
                                                       nows: seq<Timestamp>, next: Timestamp,
                                                       decrypt: Decryptor)
    requires id != "" && wrong != "" && right != "" && id in store
    requires store[id].maxRetrievals == Some(|nows|)
    requires Plaintext(store[id], wrong, decrypt).None?
    ensures forall k :: 0 <= k < |nows| ==>
      Retrieve(AfterAttempts(store, id, wrong, nows, decrypt, k), id, wrong, nows[k], decrypt).result
      == Failure(BadRequest(InvalidPassword))
    ensures Retrieve(AfterAttempts(store, id, wrong, nows, decrypt, |nows|), id, right, next, decrypt)
            == RetrievalOutcome(Failure(Forbidden(RetrievalsExhausted)), store - {id})
  {
    forall k | 0 <= k < |nows|
      ensures Retrieve(AfterAttempts(store, id, wrong, nows, decrypt, k), id, wrong, nows[k], decrypt).result
              == Failure(BadRequest(InvalidPassword))
    {
      BudgetCountdown(store, id, wrong, nows, decrypt, k);
      var before := AfterAttempts(store, id, wrong, nows, decrypt, k);
      assert Plaintext(before[id], wrong, decrypt) == Plaintext(store[id], wrong, decrypt);
    }
    BudgetCountdown(store, id, wrong, nows, decrypt, |nows|);
    var spent := AfterAttempts(store, id, wrong, nows, decrypt, |nows|);
    assert Exhausted(spent[id]);
    assert spent - {id} == store - {id};
  }

  /** A secret created with a validated budget of `n` and an expiry computed
      from its lifetime serves `n` retrievals made at any instants from its
      creation up to and including its expiry, and refuses the next one. */
  lemma {:induction false} CreatedSecretServesItsBudget(
    store: Store, id: string, encryptedContent: string, details: EncryptionDetails,
    file: Option<SecretFile>, createdBy: Option<string>, maxRetrievals: int, lifetime: OptionalNumber,
    created: Timestamp, nows: seq<Timestamp>, next: Timestamp, password: string, decrypt: Decryptor)
    requires ValidateMaxRetrievals(Number(maxRetrievals)).Pass?
    requires HandleLifetime(lifetime, created).Success?
    requires id != "" && password != "" && id in store
    requires store[id] == NewSecret(id, encryptedContent, details, file, HandleLifetime(lifetime, created).value,
                                    Some(maxRetrievals), createdBy)
    requires Plaintext(store[id], password, decrypt).Some?
    requires |nows| == maxRetrievals
    requires forall i :: 0 <= i < |nows| ==> created <= nows[i]
    requires HandleLifetime(lifetime, created).value.Some? ==>
      forall i :: 0 <= i < |nows| ==> nows[i] <= HandleLifetime(lifetime, created).value.value
    ensures maxRetrievals > 0
    ensures forall k :: 0 <= k < |nows| ==>
      Retrieve(AfterAttempts(store, id, password, nows, decrypt, k), id, password, nows[k], decrypt)
        .result.Success?
    ensures Retrieve(AfterAttempts(store, id, password, nows, decrypt, |nows|), id, password, next, decrypt)
            == RetrievalOutcome(Failure(Forbidden(RetrievalsExhausted)), store - {id})
  {
    assert LiveThroughout(store[id], nows);
    ExactlyNRetrievals(store, id, password, nows, next, decrypt);
  }

  /** For a numeric `maxRetrievals` (a JSON body), the create route's guard is
      weaker than the service's creation check: whatever the guard refuses the
      check refuses too, and the check alone refuses exactly `0` (falsy, so it
      slips through the guard) and `null`. */
  lemma ControllerGuardWeakerThanServiceCheck(m: OptionalNumber)
    ensures MaxRetrievalsRejected(m) ==> ValidateMaxRetrievals(m).Fail?
    ensures (!MaxRetrievalsRejected(m) && ValidateMaxRetrievals(m).Fail?) <==> (m == Number(0) || m == Null)
  {
  }

  /** The service's retrieval as the routes see it, answering with what the
      retrieval step returns from `store`; it carries no attachment. */
  function RetrieveSecretOver(store: Store, now: Timestamp, decrypt: Decryptor): RetrieveService
  {
    (id: string, password: string, isDownload: bool) =>
      match Retrieve(store, id, password, now, decrypt).result
      case Success(r) => Success(RetrievedSecret(r.content, None))
      case Failure(e) => Failure(e)
  }

  /** How each outcome of a retrieval reaches the client through the content
      route: NotFound stays NotFound (unknown or expired secrets), while an
      exhausted budget (Forbidden in the service) and a wrong password both
      arrive as BadRequest with the route's prefix. */
  lemma RetrievalStatusAtTheRoute(store: Store, id: string, password: string,
                                  now: Timestamp, decrypt: Decryptor)
    requires id != "" && password != ""
    ensures var r := GetSecret(id, Some(password), RetrieveSecretOver(store, now, decrypt));
      && (id !in store ==> r == Failure(NotFound(SecretNotFound)))
      && (id in store && Exhausted(store[id]) ==>
            r == Failure(BadRequest(RetrieveFailed + RetrievalsExhausted)))
      && (id in store && !Exhausted(store[id]) && Plaintext(store[id], password, decrypt).None? ==>
            r == Failure(BadRequest(RetrieveFailed + InvalidPassword)))
      && (id in store && !Exhausted(store[id]) && Plaintext(store[id], password, decrypt).Some?
          && IsExpired(store[id], now) ==>
            r == Failure(NotFound(SecretExpired)))
      && (r.Success? ==> r.value.content == Plaintext(store[id], password, decrypt).value)
  {
    var o := Retrieve(store, id, password, now, decrypt);
    var service := RetrieveSecretOver(store, now, decrypt);
    assert service(id, password, false) ==
      match o.result
      case Success(v) => Success(RetrievedSecret(v.content, None))
      case Failure(e) => Failure(e);
  }
}

=== FILE: secret_entity.dfy ===
/** The persisted shape of a secret: the ciphertext, the parameters needed to
    decrypt it, an optional owned file, and the lifecycle fields. */
module SecretEntity {
  import opened Common

  /** An instant, in milliseconds since the epoch (what a JavaScript `Date` compares by). */
  type Timestamp = int

  /** Parameters of one AES-GCM encryption, stored as hex text. */
  datatype EncryptionDetails = EncryptionDetails(salt: string, iv: string, authTag: string)

  /** An encrypted attachment, owned by exactly one secret and saved with it. */
  datatype SecretFile = SecretFile(
    id: string,
    data: seq<bv8>,
    originalFileName: string,
    encryptionDetails: EncryptionDetails)

  /** One row of the secrets table.
      - `file`: `None` is the null relation.
      - `expirationDate`: `None` is a null column, a secret that never expires.
      - `maxRetrievals`: `None` is a null column, a secret with no retrieval limit;
        otherwise the number of retrievals still allowed.
      - `retrievalCount`: the number of retrievals that passed the budget check.
      - `createdBy`: the creator's e-mail, absent for an anonymous secret. */
  datatype Secret = Secret(
    id: string,
    encryptedContent: string,
    encryptionDetails: EncryptionDetails,
    file: Option<SecretFile>,
    expirationDate: Option<Timestamp>,
    maxRetrievals: Option<int>,
    retrievalCount: int,
    createdBy: Option<string>)

  /** A record as first inserted: the generated `id` is fixed from here on,
      and the column default starts the retrieval counter at zero. */
  function NewSecret(
    id: string,
    encryptedContent: string,
    encryptionDetails: EncryptionDetails,
    file: Option<SecretFile>,
    expirationDate: Option<Timestamp>,
    maxRetrievals: Option<int>,
    createdBy: Option<string>): (s: Secret)
    ensures s.id == id && s.retrievalCount == 0
    ensures s.encryptedContent == encryptedContent && s.encryptionDetails == encryptionDetails
    ensures s.file == file && s.createdBy == createdBy
    ensures s.expirationDate == expirationDate && s.maxRetrievals == maxRetrievals
  {
    Secret(id, encryptedContent, encryptionDetails, file, expirationDate, maxRetrievals, 0, createdBy)
  }
}

=== FILE: secrets_controller.dfy ===
/** The HTTP boundary of the secrets service: the guards each route applies to
    its request before calling the service, and how the errors the service
    raises are translated for the client.

    The service is not shown here, so each route takes the service call it
    makes as a function value; what the route returns is stated in terms of
    what that call returns. */
module SecretsController {
  import opened Common

  const ContentAndPasswordRequired := "Le contenu et le mot de passe sont requis"
  const MaxRetrievalsNotPositive := "Le nombre maximum de récupérations doit être un nombre positif"
  const CreateFailed := "Erreur lors de la création du secret : "
  const SecretCreated := "Secret créé avec succès"
  const PasswordRequired := "Le mot de passe est requis"
  const RetrieveFailed := "Erreur lors de la récupération du secret : "
  const SecretRetrieved := "Secret récupéré avec succès"
  const NoFileAttached := "Aucun fichier associé à ce secret"
  const DownloadFailed := "Erreur lors du téléchargement du fichier : "
  const CountFailed := "Erreur lors de la récupération du nombre de secrets : "
  const EmailRequired := "L'email est requis"
  const UserSecretsFailed := "Erreur lors de la récupération des secrets de l'utilisateur : "
  const DeleteFailed := "Erreur lors de la suppression du secret : "
  const SecretDeleted := "Secret supprimé avec succès"

  const DefaultPage := 1
  const DefaultLimit := 10
  const DefaultSortBy := "createdAt"

  /** An uploaded attachment as the multipart interceptor hands it over. */
  datatype UploadedFile = UploadedFile(originalName: string, buffer: seq<bv8>)

  /** The loosely typed body of a create request: any field may be missing. */
  datatype CreateSecretBody = CreateSecretBody(
    content: Option<string>,
    password: Option<string>,
    lifetime: OptionalNumber,
    maxRetrievals: OptionalNumber,
    createdBy: Option<string>)

  /** The arguments the create route passes on to the service. */
  datatype CreateRequest = CreateRequest(
    content: string,
    file: Option<UploadedFile>,
    password: string,
    lifetime: OptionalNumber,
    maxRetrievals: OptionalNumber,
    createdBy: Option<string>)

  /** The service's create call: the new secret's id, or the error it raised. */
  type CreateService = CreateRequest -> Result<string, HttpError>

  datatype CreateResponse = CreateResponse(message: string, id: string, status: int)

  datatype RetrievedFile = RetrievedFile(originalName: string, data: string)

  /** What the service's retrieval call yields to the routes. */
  datatype RetrievedSecret = RetrievedSecret(content: string, file: Option<RetrievedFile>)

  /** The service's retrieval call `retrieveSecret(id, password, isDownload)`. */
  type RetrieveService = (string, string, bool) -> Result<RetrievedSecret, HttpError>

  datatype GetSecretResponse = GetSecretResponse(
    content: string,
    file: Option<RetrievedFile>,
    message: string,
    status: int)

  /** The attachment the download route streams back, with the name it is offered under. */
  datatype Download = Download(fileName: string, data: string)

  datatype SortOrder = Asc | Desc

  datatype UserSecretsQuery = UserSecretsQuery(
    email: string,
    page: int,
    limit: int,
    sortBy: string,
    order: SortOrder)

  datatype UserSecretsPage<T> = UserSecretsPage(data: seq<T>, total: int)

  datatype CountResponse = CountResponse(count: int, status: int)

  /** The create route's `maxRetrievals` guard: the value is truthy and not positive.
      For the declared numeric field, 0 is falsy and so is not caught here: the
      guard refuses exactly the negative numbers. */
  predicate MaxRetrievalsRejected(m: OptionalNumber)
    ensures MaxRetrievalsRejected(m) <==> m.Number? && m.n < 0
  {
    TruthyNumber(m) && m.n <= 0
  }

  /** The catch block of the routes that keep NotFound: NotFound is rethrown
      with its own message, anything else becomes BadRequest with the route's prefix. */
  function TranslateError(prefix: string, e: HttpError): (r: HttpError)
    ensures r.NotFound? <==> e.NotFound?
    ensures r.NotFound? || r.BadRequest?
    ensures e.NotFound? ==> r.message == e.message
    ensures !e.NotFound? ==> r.message == prefix + e.message
  {
    if e.NotFound? then NotFound(e.message) else BadRequest(prefix + e.message)
  }

  function CreateRequestOf(file: Option<UploadedFile>, body: CreateSecretBody): CreateRequest
    requires body.content.Some? && body.password.Some?
  {
    CreateRequest(body.content.value, file, body.password.value, body.lifetime,
                  body.maxRetrievals, body.createdBy)
  }

  function CreateSecret(file: Option<UploadedFile>, body: CreateSecretBody, createSecret: CreateService)
    : (r: Result<CreateResponse, HttpError>)
    ensures !Truthy(body.content) || !Truthy(body.password) ==>
      r == Failure(BadRequest(ContentAndPasswordRequired))
    ensures Truthy(body.content) && Truthy(body.password) && MaxRetrievalsRejected(body.maxRetrievals) ==>
      r == Failure(BadRequest(MaxRetrievalsNotPositive))
    // every error the service raises is collapsed into BadRequest with a prefix
    ensures Truthy(body.content) && Truthy(body.password) && !MaxRetrievalsRejected(body.maxRetrievals)
            && createSecret(CreateRequestOf(file, body)).Failure? ==>
      r == Failure(BadRequest(CreateFailed + createSecret(CreateRequestOf(file, body)).error.message))
    ensures r.Success? <==>
      Truthy(body.content) && Truthy(body.password) && !MaxRetrievalsRejected(body.maxRetrievals)
      && createSecret(CreateRequestOf(file, body)).Success?
    ensures r.Success? ==>
      r.value == CreateResponse(SecretCreated, createSecret(CreateRequestOf(file, body)).value, 200)
    ensures r.Failure? ==> r.error.BadRequest?
  {
    if !Truthy(body.content) || !Truthy(body.password) then
      Failure(BadRequest(ContentAndPasswordRequired))
    else if MaxRetrievalsRejected(body.maxRetrievals) then
      Failure(BadRequest(MaxRetrievalsNotPositive))
    else
      match createSecret(CreateRequestOf(file, body))
      case Success(id) => Success(CreateResponse(SecretCreated, id, 200))
      case Failure(e) => Failure(BadRequest(CreateFailed + e.message))
  }

  function GetSecret(id: string, password: Option<string>, retrieveSecret: RetrieveService)
    : (r: Result<GetSecretResponse, HttpError>)
    ensures !Truthy(password) ==> r == Failure(BadRequest(PasswordRequired))
    // the content route asks for a full retrieval (isDownload = false)
    ensures Truthy(password) ==>
      (r.Success? <==> retrieveSecret(id, password.value, false).Success?)
    ensures r.Success? ==>
      var s := retrieveSecret(id, password.value, false).value;
      r.value == GetSecretResponse(s.content, s.file, SecretRetrieved, 200)
    ensures Truthy(password) && retrieveSecret(id, password.value, false).Failure? ==>
      r == Failure(TranslateError(RetrieveFailed, retrieveSecret(id, password.value, false).error))
    // only NotFound reaches the client as NotFound; Forbidden and the rest become BadRequest
    ensures r.Failure? ==> r.error.NotFound? || r.error.BadRequest?
  {
    if !Truthy(password) then Failure(BadRequest(PasswordRequired))
    else
      match retrieveSecret(id, password.value, false)
      case Success(s) => Success(GetSecretResponse(s.content, s.file, SecretRetrieved, 200))
      case Failure(e) => Failure(TranslateError(RetrieveFailed, e))
  }

  function DownloadFile(id: string, password: Option<string>, retrieveSecret: RetrieveService)
    : (r: Result<Download, HttpError>)
    ensures !Truthy(password) ==> r == Failure(BadRequest(PasswordRequired))
    // the download route asks for a download-only retrieval (isDownload = true)
    ensures r.Success? <==>
      Truthy(password) && retrieveSecret(id, password.value, true).Success?
      && retrieveSecret(id, password.value, true).value.file.Some?
    ensures r.Success? ==>
      var f := retrieveSecret(id, password.value, true).value.file.value;
      r.value == Download(f.originalName, f.data)
    // a secret without an attachment is NotFound, kept as such by the catch block
    ensures Truthy(password) && retrieveSecret(id, password.value, true).Success?
            && retrieveSecret(id, password.value, true).value.file.None? ==>
      r == Failure(NotFound(NoFileAttached))
    ensures Truthy(password) && retrieveSecret(id, password.value, true).Failure? ==>
      r == Failure(TranslateError(DownloadFailed, retrieveSecret(id, password.value, true).error))
    ensures r.Failure? ==> r.error.NotFound? || r.error.BadRequest?
  {
    if !Truthy(password) then Failure(BadRequest(PasswordRequired))
    else
      var attempt: Result<Download, HttpError> :=
        match retrieveSecret(id, password.value, true)
        case Failure(e) => Failure(e)
        case Success(s) =>
          match s.file
          case None => Failure(NotFound(NoFileAttached))
          case Some(f) => Success(Download(f.originalName, f.data));
      match attempt
      case Success(d) => Success(d)
      case Failure(e) => Failure(TranslateError(DownloadFailed, e))
  }

  /** `count` is what the service's count call yielded. */
  function GetSecretCount(count: Result<int, HttpError>): (r: Result<CountResponse, HttpError>)
    ensures r.Success? <==> count.Success?
    ensures r.Success? ==> r.value == CountResponse(count.value, 200)
    ensures r.Failure? ==> r == Failure(BadRequest(CountFailed + count.error.message))
  {
    match count
    case Success(n) => Success(CountResponse(n, 200))
    case Failure(e) => Failure(BadRequest(CountFailed + e.message))
  }

  /** The listing query with the route's defaults filled in for absent parameters. */
  function UserSecretsQueryOf(email: string, page: Option<int>, limit: Option<int>,
                              sortBy: Option<string>, order: Option<SortOrder>): (q: UserSecretsQuery)
    ensures q.email == email
    ensures q.page == (if page.Some? then page.value else DefaultPage)
    ensures q.limit == (if limit.Some? then limit.value else DefaultLimit)
    ensures q.sortBy == (if sortBy.Some? then sortBy.value else DefaultSortBy)
    ensures q.order == (if order.Some? then order.value else Asc)
  {
    UserSecretsQuery(
      email,
      match page case Some(p) => p case None => DefaultPage,
      match limit case Some(l) => l case None => DefaultLimit,
      match sortBy case Some(s) => s case None => DefaultSortBy,
      match order case Some(o) => o case None => Asc)
  }

  function GetUserSecrets<T>(email: Option<string>, page: Option<int>, limit: Option<int>,
                             sortBy: Option<string>, order: Option<SortOrder>,
                             getUserSecrets: UserSecretsQuery -> Result<UserSecretsPage<T>, HttpError>)
    : (r: Result<UserSecretsPage<T>, HttpError>)
    ensures !Truthy(email) ==> r == Failure(BadRequest(EmailRequired))
    ensures Truthy(email) ==>
      var answer := getUserSecrets(UserSecretsQueryOf(email.value, page, limit, sortBy, order));
      && (r.Success? <==> answer.Success?)
      && (r.Success? ==> r.value == answer.value)
      && (r.Failure? ==> r == Failure(BadRequest(UserSecretsFailed + answer.error.message)))
  {
    if !Truthy(email) then Failure(BadRequest(EmailRequired))
    else
      match getUserSecrets(UserSecretsQueryOf(email.value, page, limit, sortBy, order))
      case Success(p) => Success(UserSecretsPage(p.data, p.total))
      case Failure(e) => Failure(BadRequest(UserSecretsFailed + e.message))
  }

  /** `deleteSecret(id, password)` is the service's delete call. */
  function DeleteSecret(id: string, password: Option<string>, deleteSecret: (string, string) -> Outcome<HttpError>)
    : (r: Result<string, HttpError>)
    ensures !Truthy(password) ==> r == Failure(BadRequest(PasswordRequired))
    ensures Truthy(password) ==> (r.Success? <==> deleteSecret(id, password.value).Pass?)
    ensures r.Success? ==> r.value == SecretDeleted
    ensures Truthy(password) && deleteSecret(id, password.value).Fail? ==>
      r == Failure(TranslateError(DeleteFailed, deleteSecret(id, password.value).error))
    ensures r.Failure? ==> r.error.NotFound? || r.error.BadRequest?
  {
    if !Truthy(password) then Failure(BadRequest(PasswordRequired))
    else
      match deleteSecret(id, password.value)
      case Pass => Success(SecretDeleted)
      case Fail(e) => Failure(TranslateError(DeleteFailed, e))
  }
}

=== FILE: secrets_service.dfy ===
/** The retrieval lifecycle of a secret: input validation, lookup, retrieval
    accounting (saved before decryption), decryption, lazy expiry, and the
    two creation-time validators.

    The pure functions below give the meaning of each step and, in
    `Retrieve`, of a whole retrieval as a transition of the store; the class
    `SecretsService` performs the same steps on its stored map and is proved
    to agree with them. */
module Secrets {
  import opened Common
  import opened SecretEntity

  /** The repository: records by primary key. */
  type Store = map<string, Secret>

  /** The cipher, as an oracle: `decrypt(encrypted, password, iv, salt, authTag)`
      yields the plaintext, or `None` where the real cipher throws (wrong
      password or tampered data, which it cannot tell apart). */
  type Decryptor = (string, string, string, string, string) -> Option<string>

  const InputsRequired := "ID and password are required"
  const SecretNotFound := "Secret not found"
  const RetrievalsExhausted := "This secret has reached its maximum number of retrievals"
  const InvalidPassword := "Invalid password provided"
  const SecretExpired := "Secret has expired and is no longer available"
  const LifetimeNotPositive := "Lifetime must be a positive number"

  /** `setDate(getDate() + lifetime)` moves a date by whole days; time zones
      and daylight saving are not modelled, so a day is a fixed length. */
  const MillisPerDay := 86_400_000

  /** What a successful retrieval returns. */
  datatype SecretResponse = SecretResponse(
    id: string,
    content: string,
    expirationDate: Option<Timestamp>,
    maxRetrievals: Option<int>,
    retrievalCount: int)

  /** The reply to one retrieval together with the store it leaves behind. */
  datatype RetrievalOutcome = RetrievalOutcome(result: Result<SecretResponse, HttpError>, store: Store)

  /** Every record is stored under its own primary key. */
  ghost predicate WellKeyed(store: Store)
  {
    forall k :: k in store ==> store[k].id == k
  }

  function ValidateInputs(id: string, password: string): (r: Outcome<HttpError>)
    ensures r.Pass? <==> id != "" && password != ""
    ensures r.Fail? ==> r.error == BadRequest(InputsRequired)
  {
    if id == "" || password == "" then Fail(BadRequest(InputsRequired)) else Pass
  }

  function Lookup(store: Store, id: string): (r: Result<Secret, HttpError>)
    ensures r.Success? <==> id in store
    ensures r.Success? ==> r.value == store[id]
    ensures r.Failure? ==> r.error == NotFound(SecretNotFound)
  {
    if id in store then Success(store[id]) else Failure(NotFound(SecretNotFound))
  }

  /** The budget is used up: a limit is set and nothing is left of it. */
  predicate Exhausted(s: Secret)
    // a null budget means no limit; a budget of 0 is used up
    ensures s.maxRetrievals.None? ==> !Exhausted(s)
    ensures s.maxRetrievals == Some(0) ==> Exhausted(s)
    ensures s.maxRetrievals.Some? && s.maxRetrievals.value > 0 ==> !Exhausted(s)
  {
    s.maxRetrievals.Some? && s.maxRetrievals.value <= 0
  }

  /** Retrieval accounting: refuse an exhausted secret, otherwise spend one
      unit of a set budget and count one more retrieval. */
  function Account(s: Secret): (r: Result<Secret, HttpError>)
    ensures r.Failure? <==> Exhausted(s)
    ensures r.Failure? ==> r.error == Forbidden(RetrievalsExhausted)
    ensures r.Success? ==> r.value.retrievalCount == s.retrievalCount + 1
    ensures r.Success? && s.maxRetrievals.None? ==> r.value.maxRetrievals.None?
    ensures r.Success? && s.maxRetrievals.Some? ==>
      r.value.maxRetrievals.Some? && r.value.maxRetrievals.value == s.maxRetrievals.value - 1 >= 0
    // nothing but the two counters changes, in particular not the primary key
    ensures r.Success? ==>
      r.value == s.(maxRetrievals := r.value.maxRetrievals, retrievalCount := r.value.retrievalCount)
  {
    if Exhausted(s) then Failure(Forbidden(RetrievalsExhausted))
    else
      var budget := if s.maxRetrievals.Some? then Some(s.maxRetrievals.value - 1) else None;
      Success(s.(maxRetrievals := budget, retrievalCount := s.retrievalCount + 1))
  }

  /** The plaintext the oracle gives for this record's ciphertext and parameters. */
  function Plaintext(s: Secret, password: string, decrypt: Decryptor): Option<string>
  {
    decrypt(s.encryptedContent, password, s.encryptionDetails.iv,
            s.encryptionDetails.salt, s.encryptionDetails.authTag)
  }

  /** Any failure of the cipher becomes one generic "invalid password" error. */
  function DecryptSecret(s: Secret, password: string, decrypt: Decryptor): (r: Result<string, HttpError>)
    ensures r.Success? <==> Plaintext(s, password, decrypt).Some?
    ensures r.Success? ==> r.value == Plaintext(s, password, decrypt).value
    ensures r.Failure? ==> r.error == BadRequest(InvalidPassword)
  {
    match Plaintext(s, password, decrypt)
    case Some(content) => Success(content)
    case None => Failure(BadRequest(InvalidPassword))
  }

  /** Expired means an expiry is set and lies strictly before `now`. */
  predicate IsExpired(s: Secret, now: Timestamp)
    // a null expiry never expires, and an expiry equal to `now` has not expired yet
    ensures s.expirationDate.None? ==> !IsExpired(s, now)
    ensures s.expirationDate.Some? && now <= s.expirationDate.value ==> !IsExpired(s, now)
    ensures s.expirationDate.Some? && now > s.expirationDate.value ==> IsExpired(s, now)
  {
    s.expirationDate.Some? && s.expirationDate.value < now
  }

  /** The reply: the decrypted content with the record's id, expiry and both counters. */
  function FormatSecretResponse(s: Secret, content: string): (r: SecretResponse)
    ensures r.id == s.id && r.content == content && r.expirationDate == s.expirationDate
    ensures r.maxRetrievals == s.maxRetrievals && r.retrievalCount == s.retrievalCount
  {
    SecretResponse(s.id, content, s.expirationDate, s.maxRetrievals, s.retrievalCount)
  }

  /** Creation-time check: an absent budget or a positive one is accepted.
      `null` is rejected, since `null !== undefined` and `null <= 0` both hold. */
  function ValidateMaxRetrievals(maxRetrievals: OptionalNumber): (r: Outcome<HttpError>)
    ensures r.Pass? <==> maxRetrievals.Undefined? || (maxRetrievals.Number? && maxRetrievals.n > 0)
    ensures r.Fail? ==>
      r.error == BadRequest("Invalid maxRetrievals value: " + OptionalNumberText(maxRetrievals)
                            + ". It must be a positive number.")
  {
    var nonPositive := match maxRetrievals
      case Undefined => false
      case Null => true
      case Number(n) => n <= 0;
    if nonPositive then
      Fail(BadRequest("Invalid maxRetrievals value: " + OptionalNumberText(maxRetrievals)
                      + ". It must be a positive number."))
    else Pass
  }

  /** Creation-time expiry: none for an absent lifetime, an error for a
      non-positive one, otherwise `lifetime` whole days after `now`. */
  function HandleLifetime(lifetime: OptionalNumber, now: Timestamp): (r: Result<Option<Timestamp>, HttpError>)
    ensures r == Success(None) <==> lifetime.Undefined? || lifetime.Null?
    ensures r.Failure? <==> lifetime.Number? && lifetime.n <= 0
    ensures r.Failure? ==> r.error == BadRequest(LifetimeNotPositive)
    ensures r.Success? && r.value.Some? ==>
      lifetime.Number? && r.value.value == now + lifetime.n * MillisPerDay
    // a secret is never created already expired, nor expiring at its creation instant
    ensures r.Success? && r.value.Some? ==> r.value.value > now
  {
    match lifetime
    case Undefined => Success(None)
    case Null => Success(None)
    case Number(days) =>
      if days <= 0 then Failure(BadRequest(LifetimeNotPositive))
      else Success(Some(now + days * MillisPerDay))
  }

  /** One retrieval of `id` with `password` at instant `now`, as a transition of the store. */
  function Retrieve(store: Store, id: string, password: string, now: Timestamp, decrypt: Decryptor)
    : (o: RetrievalOutcome)
    // a retrieval never adds a record and never touches a record other than `id`
    ensures o.store.Keys <= store.Keys
    ensures o.store - {id} == store - {id}
    // missing input: rejected before the lookup, nothing changes
    ensures id == "" || password == "" ==>
      o == RetrievalOutcome(Failure(BadRequest(InputsRequired)), store)
    // unknown id: nothing changes
    ensures id != "" && password != "" && id !in store ==>
      o == RetrievalOutcome(Failure(NotFound(SecretNotFound)), store)
    // exhausted budget: the record is deleted and nothing is returned
    ensures id != "" && password != "" && id in store && Exhausted(store[id]) ==>
      o == RetrievalOutcome(Failure(Forbidden(RetrievalsExhausted)), store - {id})
    // accounting is persisted before decryption: a wrong password still spends a retrieval
    ensures id != "" && password != "" && id in store && !Exhausted(store[id])
            && Plaintext(store[id], password, decrypt).None? ==>
      o == RetrievalOutcome(Failure(BadRequest(InvalidPassword)), store[id := Account(store[id]).value])
    // lazy expiry, checked only after a successful decryption: the record is deleted
    ensures id != "" && password != "" && id in store && !Exhausted(store[id])
            && Plaintext(store[id], password, decrypt).Some? && IsExpired(store[id], now) ==>
      o == RetrievalOutcome(Failure(NotFound(SecretExpired)), store - {id})
    // success exactly when every step passes; expired content is never returned
    ensures o.result.Success? <==>
      id != "" && password != "" && id in store && !Exhausted(store[id])
      && Plaintext(store[id], password, decrypt).Some? && !IsExpired(store[id], now)
    // a success returns the plaintext with the counters as saved, and keeps the
    // record, even when this was its last allowed retrieval
    ensures o.result.Success? ==>
      && id in o.store
      && o.store[id] == Account(store[id]).value
      && o.result.value == SecretResponse(store[id].id, Plaintext(store[id], password, decrypt).value,
                                                store[id].expirationDate, o.store[id].maxRetrievals,
                                                store[id].retrievalCount + 1)
  {
    match ValidateInputs(id, password)
    case Fail(e) => RetrievalOutcome(Failure(e), store)
    case Pass =>
      match Lookup(store, id)
      case Failure(e) => RetrievalOutcome(Failure(e), store)
      case Success(secret) =>
        match Account(secret)
        case Failure(e) => RetrievalOutcome(Failure(e), store - {id})
        case Success(accounted) =>
          var saved := store[id := accounted];
          match DecryptSecret(accounted, password, decrypt)
          case Failure(e) => RetrievalOutcome(Failure(e), saved)
          case Success(content) =>
            if IsExpired(accounted, now) then RetrievalOutcome(Failure(NotFound(SecretExpired)), saved - {id})
            else RetrievalOutcome(Success(FormatSecretResponse(accounted, content)), saved)
  }

  /** The service with its repository. `secrets` is the table; `Save` and
      `Remove` are the repository's `save` and `remove`. */
  class SecretsService {
    var secrets: Store

    ghost predicate Valid()
      reads this
    {
      WellKeyed(secrets)
    }

    constructor ()
      ensures Valid() && secrets == map[]
    {
      secrets := map[];
    }

    /** Insert or overwrite the row with the record's primary key. */
    method Save(s: Secret)
      requires Valid()
      modifies this
      ensures Valid()
      ensures secrets == old(secrets)[s.id := s]
    {
      secrets := secrets[s.id := s];
    }

    /** Delete the row with the record's primary key. */
    method Remove(s: Secret)
      requires Valid()
      modifies this
      ensures Valid()
      ensures secrets == old(secrets) - {s.id}
    {
      secrets := secrets - {s.id};
    }

    method FindSecretById(id: string) returns (r: Result<Secret, HttpError>)
      requires Valid()
      ensures r.Success? <==> id in secrets
      ensures r.Success? ==> r.value == secrets[id] && r.value.id == id
      ensures r.Failure? ==> r.error == NotFound(SecretNotFound)
    {
      if id in secrets {
        r := Success(secrets[id]);
      } else {
        r := Failure(NotFound(SecretNotFound));
      }
    }

    /** Refuse and delete an exhausted secret; otherwise update its counters and save it. */
    method ValidateAndHandleRetrieval(secret: Secret) returns (r: Result<Secret, HttpError>)
      requires Valid()
      modifies this
      ensures Valid()
      ensures r == Account(secret)
      ensures r.Failure? ==> secrets == old(secrets) - {secret.id}
      ensures r.Success? ==> secrets == old(secrets)[secret.id := r.value]
    {
      var updated := secret;
      if secret.maxRetrievals.Some? {
        if secret.maxRetrievals.value <= 0 {
          Remove(secret);
          return Failure(Forbidden(RetrievalsExhausted));
        }
        updated := updated.(maxRetrievals := Some(secret.maxRetrievals.value - 1));
      }
      updated := updated.(retrievalCount := updated.retrievalCount + 1);
      Save(updated);
      r := Success(updated);
    }

    /** Delete the secret if it has expired by `now`, and say whether it had. */
    method HandleExpiration(secret: Secret, now: Timestamp) returns (expired: bool)
      requires Valid()
      modifies this
      ensures Valid()
      ensures expired == IsExpired(secret, now)
      ensures secrets == if expired then old(secrets) - {secret.id} else old(secrets)
    {
      expired := false;
      if secret.expirationDate.Some? && secret.expirationDate.value < now {
        Remove(secret);
        expired := true;
      }
    }

    /** Validate, look up, account, decrypt, expire, respond, in that order. */
    method ProcessSecrets(id: string, password: string, now: Timestamp, decrypt: Decryptor)
      returns (r: Result<SecretResponse, HttpError>)
      requires Valid()
      modifies this
      ensures Valid()
      ensures RetrievalOutcome(r, secrets) == Retrieve(old(secrets), id, password, now, decrypt)
    {
      var inputs := ValidateInputs(id, password);
      if inputs.Fail? {
        return Failure(inputs.error);
      }
      var found := FindSecretById(id);
      if found.Failure? {
        return Failure(found.error);
      }
      var accounted := ValidateAndHandleRetrieval(found.value);
      if accounted.Failure? {
        return Failure(accounted.error);
      }
      var secret := accounted.value;
      var content := DecryptSecret(secret, password, decrypt);
      if content.Failure? {
        return Failure(content.error);
      }
      var isExpired := HandleExpiration(secret, now);
      if isExpired {
        return Failure(NotFound(SecretExpired));
      }
      r := Success(FormatSecretResponse(secret, content.value));
    }
  }
}
